=== FILE: README.md ===
# allpy in Dafny

A model of the core of `allpy`, a numerical solver for two-player all-pay
contests, over exact reals. It has two entry points:

- `gtilde(v, c, b, num)` works for one player with value `v` (a constant prize
  or a function of both players' scores) and cost `c`. On a uniform grid of `num`
  scores up to the bound `b` it computes:
  - the atomless cdf of the player's equilibrium strategy and its density;
  - the truncation index `sbari`. For `b > 0` it is one less than the number of
    grid points whose cdf is at most one; that is the last such point when the
    cdf is non-decreasing. For `b <= 0` it is the first grid point;
  - `success`, whether the bound was large enough for the cdf to pass one.
- `eq2p(v, c, b, num)` works for two players:
  - it reads the value and cost arguments, one shared item or one per player;
  - it guesses a bound when none is given;
  - it doubles the bound until one player's atomless cdf passes one;
  - it cuts both players' arrays at the smaller truncation index;
  - it shifts each cdf so that it ends at exactly one, so the shift becomes an
    atom at score zero.

The modules follow the program's structure:

- `Outcomes`: the `Result` and `Option` types, and the `Error` type. `Error` has
  one constructor for each exception the code raises, plus two of the model's
  own: `ZeroPrize` (where numpy would carry on with `inf` or `nan`) and
  `NoConvergence` (the limit on the number of doublings).
- `Series`: the array primitives the solver uses (`cumsum`, `diff`, the shift to
  one, boolean-mask selection, `argmax`), each with the lemmas that make it
  usable: prefix sums, the diff/cumsum round trips in both directions, uniqueness
  of the shift, first-maximum `argmax`.
- `Atomless`: `gtilde`. It is split into the atomless stage (`AtomlessCdf`) and
  the truncation stage (`Truncate`), glued together by `Gtilde`.
- `Arguments`: how `eq2p` reads `v` and `c`. This includes the cost test as
  written and as intended (see Findings).
- `Equilibrium`: the bound guess, one crossed round of the search, the doubling
  search with an iteration budget, the reconciliation of the settled round, and
  `Eq2p`.
- `Scenario`: a worked call of `eq2p` with its default arguments on four grid
  points. The result is computed in full and proved equal to the model's output.

The external Volterra solver is a parameter `solve` of type
`(Kernel, Cost, real, nat) -> seq<real>`. The model assumes two things of it:
it returns one density value per grid point (`WellShaped`), and its score grid
is the same uniform grid the constant-prize branch builds (see "Left out").

## Model

| member | source | states |
|---|---|---|
| Series.CumSum | allpy/__init__.py:30 | `numpy.cumsum` has one entry per input entry; `CumSumIsPrefixSum` gives its entries, `FirstDiffOfCumSum` and `CumSumOfFirstDiff` relate it to `FirstDiff` |
| Series.FirstDiff | allpy/__init__.py:37 | `insert(diff(g), 0, g[0])` has one entry per entry of `g`; `CumSumOfFirstDiff` and `FirstDiffOfCumSum` show it and `CumSum` undo each other |
| Series.CumSumIsPrefixSum | allpy/__init__.py:30 | entry `i` of `numpy.cumsum` is the sum of the first `i + 1` entries |
| Series.CumSumSteps | allpy/__init__.py:30 | the running sum starts at the first entry and each later entry adds one summand |
| Series.FirstDiffOfCumSum | allpy/__init__.py:30 | the first differences of a running sum give back the summands (`diff` undoes `cumsum`) |
| Series.CumSumOfFirstDiff | allpy/__init__.py:37 | the running sum of `insert(diff(g), 0, g[0])` gives `g` back (`cumsum` undoes `diff`) |
| Series.SumOfDiffPrefix | allpy/__init__.py:37 | the first `i + 1` first differences of `g` add up to `g[i]` |
| Series.SumScale | allpy/__init__.py:30 | scaling every entry by `k` scales the sum by `k` |
| Series.CumSumScale | allpy/__init__.py:30 | `cumsum(pdf * k)` is `k * cumsum(pdf)`: scaling before or after the running sum gives the same array |
| Series.ShiftToOne | allpy/__init__.py:117 | `G - G[-1] + 1` ends at exactly one, keeps every consecutive difference, and moves all entries by the same amount |
| Series.ShiftToOneIsUnique | allpy/__init__.py:117 | any sequence that ends at one and has the same consecutive differences is the shifted one |
| Series.SelectAtMostOne | allpy/__init__.py:39 | `s[cdf <= 1]` keeps as many entries as the cdf has entries at most one |
| Series.SelectedComeFromGrid | allpy/__init__.py:39 | every entry the mask keeps is a grid point |
| Series.SelectAtMostOneIsMask | allpy/__init__.py:39 | a value is kept by `s[cdf <= 1]` exactly when it is some `s[i]` with `cdf[i] <= 1` |
| Series.SelectKeepsIncreasing | allpy/__init__.py:39 | masking a strictly increasing grid leaves it strictly increasing |
| Series.SelectKeepsNonIncreasing | allpy/__init__.py:39 | masking a non-increasing grid leaves it non-increasing |
| Series.ArgMax | allpy/__init__.py:39 | `numpy.argmax` returns an index of its argument; `ArgMaxIsFirstMax` shows it is the first largest entry |
| Series.ArgMaxIsFirstMax | allpy/__init__.py:39 | `argmax` picks an entry no smaller than any other, and every earlier entry is strictly smaller |
| Series.ArgMaxOfIncreasing | allpy/__init__.py:39 | on a strictly increasing sequence `argmax` is the last index |
| Series.ArgMaxOfNonIncreasing | allpy/__init__.py:39 | on a non-increasing sequence `argmax` is the first index |
| Series.CountSplitsNonDecreasing | allpy/__init__.py:39 | for a non-decreasing cdf the entries at most one are exactly the first `CountAtMostOne` ones |
| Series.BelowCountAtMostOne | allpy/__init__.py:39 | for a non-decreasing cdf every index below the count of entries at most one has its entry at most one |
| Series.CountIndexMissesUnsortedCdf | allpy/__init__.py:39 | for a cdf that is not monotone, the point at index `count - 1` can have a cdf above one |
| Atomless.Linspace | allpy/__init__.py:34 | `numpy.linspace(start, stop, n)` has `n` points; `LinspaceIsUniformGrid` identifies `gtilde`'s call with `UniformGrid` |
| Atomless.UniformGrid | allpy/__init__.py:34 | the grid has `num` points; `UniformGridEnds`, `UniformGridIncreasing`, `UniformGridNonIncreasing` and `LinspaceIsUniformGrid` give its shape |
| Atomless.UniformGridEnds | allpy/__init__.py:34 | the grid starts at `b / num`, ends at `b`, and its points are `b / num` apart |
| Atomless.UniformGridIncreasing | allpy/__init__.py:34 | for `b > 0` the grid points are positive and strictly increasing |
| Atomless.UniformGridNonIncreasing | allpy/__init__.py:34 | for `b <= 0` the grid never rises |
| Atomless.LinspaceIsUniformGrid | allpy/__init__.py:34 | `linspace(b / num, b, num)` is the grid `(i + 1) * b / num` |
| Atomless.AtomlessCdf | allpy/__init__.py:27-37 | only a zero constant prize fails; all three arrays have `num` entries; a constant prize gives the cdf `c(s[i]) / v`; a value function gives the solver's density |
| Atomless.ConstantPrizeClosedForm | allpy/__init__.py:34-37 | the constant-prize cdf is `c((i + 1) * b / num) / v`, the density is its first differences, and the running sum of the density is the cdf |
| Atomless.ValueFunctionRunningSum | allpy/__init__.py:28-30 | the value-function density is the solver's output, and the cdf starts at `b / num` times its first entry and rises by `b / num` times each later entry |
| Atomless.ValueFunctionCdfIsScaledRunningSum | allpy/__init__.py:30 | the value-function cdf is `b / num` times the running sum of the solver's density |
| Atomless.ScaledRunningSum | allpy/__init__.py:30 | the running sum of `pdf * h` starts at `h * pdf[0]` and rises by `h * pdf[i]` at step `i` |
| Atomless.IncreasingCostGivesMonotoneCdf | allpy/__init__.py:34-35 | with a positive prize, a positive bound and a cost non-decreasing on positive scores (such as `s ** 2`), the closed-form cdf is non-decreasing |
| Atomless.QuadraticCostGivesMonotoneCdf | example/example.py:11-12 | the quadratic cost `si ** 2` gives a non-decreasing closed-form cdf for a positive prize and bound, though it is not monotone on all reals |
| Atomless.NonNegativeDensityGivesMonotoneCdf | allpy/__init__.py:28-30 | with a positive bound and a non-negative solver density, the running-sum cdf is non-decreasing |
| Atomless.TruncationIndex | allpy/__init__.py:39 | `argmax` of the masked grid fails exactly when no cdf entry is at most one; otherwise it is below the count of such entries, on an increasing grid it is that count minus one, and on a non-increasing grid it is zero |
| Atomless.Truncate | allpy/__init__.py:39-47 | fails exactly when no point qualifies; keeps grid and cdf; multiplies the density by `num`; `sbar` is the grid point at `sbari`; `success` holds exactly when the last cdf entry exceeds one; `sbari` is below the qualifying count, that count minus one on an increasing grid and zero on a non-increasing one |
| Atomless.TruncationSplitsGrid | allpy/__init__.py:39-46 | for a non-decreasing cdf on an increasing grid, the cdf is at most one up to `sbari` and above one after it, and `success` holds exactly when `sbari` is not the last index |
| Atomless.CutoffAtMostOne | allpy/__init__.py:39 | for any bound and a non-decreasing cdf, `gtilde`'s cdf is at most one at the truncation index, so the atom `eq2p` puts at zero is non-negative |
| Atomless.Gtilde | allpy/__init__.py:10-47 | `num = 0` fails; the only errors are a zero grid size, a zero prize and no qualifying point; on success the arrays are on the uniform grid, `sbar = s[sbari]`, `success` holds iff the last cdf entry exceeds one, `sbari` is below the qualifying count; for `b > 0` it is that count minus one, and for `b <= 0` it is zero |
| Atomless.GtildeStages | allpy/__init__.py:27-47 | for a non-empty grid, `gtilde` is the truncation of the atomless stage and fails with a zero prize exactly when that stage does |
| Arguments.Split | allpy/__init__.py:64-74 | an item or a one-element tuple goes to both players, a pair is split in order, and any other length fails with the given error |
| Arguments.SplitOfPair | allpy/__init__.py:68-69 | splitting a two-element tuple gives its two items back |
| Arguments.SplitSingleAsTuple | allpy/__init__.py:65-72 | a bare item and the one-element tuple holding it are read the same way |
| Arguments.SplitValue | allpy/__init__.py:64-74 | the value argument fails with `ValueError` exactly for tuples of length other than 1 and 2, and a broadcast gives both players the same value |
| Arguments.SplitCostAsWritten | allpy/__init__.py:76-86 | the code as written accepts a bare cost, a pair, or a one-element cost tuple only when the value is a one-element tuple; otherwise it fails with `TypeError`, an unpacking `ValueError` or the explicit `ValueError`, depending on the value argument |
| Arguments.SplitCost | allpy/__init__.py:76-86 | the cost argument read like the value argument: it fails exactly for tuples of length other than 1 and 2 |
| Arguments.CostAsWrittenAgreesWhereAccepted | allpy/__init__.py:76-86 | where the code as written accepts a cost it agrees with the intended reading; it wrongly rejects exactly the one-element cost tuples whose value is not a one-element tuple |
| Arguments.OneCostTupleRejected | allpy/__init__.py:80-86 | a one-element cost tuple is rejected with two values and with a bare value, although it is meant for both players |
| Arguments.Normalise | allpy/__init__.py:64-86 | fails exactly when either argument has a bad length, reporting the value's error first; otherwise player 1 gets the first value and cost, player 2 the second |
| Arguments.BroadcastGivesSymmetricPlayers | allpy/__init__.py:64-86 | one value and one cost, bare or in one-element tuples, give two identical players |
| Equilibrium.GuessFor | allpy/__init__.py:89-98 | `num = 0` and a zero denominator `c(1 / num) * num` fail; otherwise the guess times the denominator is the prize (`v(0, 0)` for a value function) |
| Equilibrium.LinearCostGuessIsPrize | allpy/__init__.py:91-93 | with the default linear cost the guessed bound is the prize itself |
| Equilibrium.BoundGuess | allpy/__init__.py:89-100 | the default bound exists when both players' guesses exist, and it is the smaller of the two |
| Equilibrium.StartBound | allpy/__init__.py:88-100 | a given bound is used as it is; without one the default guess is used, which exists exactly when both players' guesses exist |
| Equilibrium.PlayRound | allpy/__init__.py:102-104 | roles are crossed: player 2's distribution comes from player 1's value and cost and the other way round; player 2's error comes first |
| Equilibrium.Settled | allpy/__init__.py:105-108 | the loop stops when at least one player's `success` flag is set; `Search`, `SearchStopsAtFirstSettled` and `SearchGivesUp` carry its role |
| Equilibrium.Search | allpy/__init__.py:102-110 | a successful search returns a settled round together with the bound it was played at; a failing first round ends the search with its error |
| Equilibrium.Doubled | allpy/__init__.py:110 | `k` doublings never bring the bound closer to zero; `DoubledIsPowerOfTwo` gives its value `b * 2^k` |
| Equilibrium.DoubledIsPowerOfTwo | allpy/__init__.py:110 | doubling `k` times multiplies the bound by `2^k` |
| Equilibrium.DoubledShift | allpy/__init__.py:110 | doubling once and then `k` times is doubling `k + 1` times |
| Equilibrium.SearchStopsAtFirstSettled | allpy/__init__.py:102-110 | if the first `k` rounds are unsettled and the round at `b * 2^k` settles within the budget, the search returns that round and bound |
| Equilibrium.SearchBoundIsDoubled | allpy/__init__.py:102-110 | a successful search stops at `b * 2^k` for some `k` within the budget, and every earlier round was unsettled |
| Equilibrium.SearchGivesUp | allpy/__init__.py:102-110 | if no round within the budget settles, the search reports that it did not converge |
| Equilibrium.Reconcile | allpy/__init__.py:112-126 | `bari` is the smaller truncation index; grid, pdfs and cdfs have `bari + 1` entries and are prefixes of player 1's grid and the players' arrays; `sbar` is the last grid point; each cdf ends at one, keeps every step, and is moved by one constant; the bound is kept |
| Equilibrium.ReconciledCdfIsUnique | allpy/__init__.py:117 | the reported cdf is the only sequence of that length that ends at one and keeps the truncated cdf's steps |
| Equilibrium.RoundAtomsNonNegative | allpy/__init__.py:103-117 | at any bound, if both players' atomless cdfs in a solved round are non-decreasing, both atoms `1 - G[bari]` are non-negative and both reported cdfs are non-decreasing |
| Equilibrium.AtomsNonNegative | allpy/__init__.py:112-117 | with non-decreasing cdfs that are at most one at their own truncation index, both atoms `1 - G[bari]` are non-negative, and both reported cdfs are non-decreasing and at most one |
| Equilibrium.Eq2p | allpy/__init__.py:53-127 | success needs readable arguments and `num > 0`; the grid and both cdfs have `sbari + 1` entries; `sbar = s[sbari]`; both cdfs end at one |
| Equilibrium.Eq2pReportsSettledBound | allpy/__init__.py:102-126 | the reported bound is the start bound doubled `k` times within the budget; the round there settled and every earlier one did not; the result is the reconciliation of that round |
| Equilibrium.SymmetricPlayersAgree | allpy/__init__.py:103-117 | players with the same value and cost get the same reported pdf and cdf |
| Scenario.UnitPrizeCdfIsGrid | allpy/__init__.py:34-35 | with a unit prize and the linear cost, the atomless cdf equals the grid |
| Scenario.FirstRoundUnsettled | allpy/__init__.py:102-108 | with the default arguments on four points, the round at the guessed bound `1` does not settle |
| Scenario.SecondRoundSettles | allpy/__init__.py:34-46 | at bound `2` the cdf is `[0.5, 1, 1.5, 2]`, `sbari = 1`, `success` holds, and the first two reported densities are `2` |
| Scenario.DefaultSearch | allpy/__init__.py:102-110 | from the default bound the search doubles once and stops at `2` |
| Scenario.DefaultReconcile | allpy/__init__.py:112-126 | cutting that round at index 1 leaves grid `[0.5, 1]`, densities `[2, 2]` and cdfs `[0.5, 1]` with no atom |
| Scenario.DefaultRun | allpy/__init__.py:53-127 | `eq2p()` on four points returns exactly that result with `b = 2` |

## Left out

- `SolveVolterra` (line 28) comes from another package. It is the parameter
  `solve`, assumed to return `num` density values. The grid it returns is taken
  to be the uniform grid of line 34, so both branches of `gtilde` report the
  same grid; its numerical method is not modelled.
- The `method` argument of `gtilde` (line 15) only reaches `SolveVolterra`, so it
  disappears with it.
- Floating point and numpy numerics are replaced by exact reals. "Ends at
  exactly one" holds over reals, not necessarily over IEEE doubles.
- Atomless.AtomlessCdf: a constant prize of zero is the error `ZeroPrize`.
  numpy would instead give `inf` or `nan` with a runtime warning, and the run then
  usually ends at the empty `argmax`.
- `num` is a `nat`. A negative `num` and the `int(num)` coercion (lines 24-25)
  are not modelled. `num = 0` is the `ZeroDivisionError` of `b / num` or
  `1 / num` (`ZeroGridSize`).
- Python's `callable`/`isinstance` dispatch becomes data:
  - `Value` is `Const | Func`;
  - an argument is `Single | Tuple`.
  So a callable and a number are both a bare item, and any other sequence type
  is read as a tuple.
- Equilibrium.Search: the `while True` loop of lines 102-110 may not terminate,
  for example from a bound of zero or when no cdf ever passes one. The model
  allows at most `fuel` doublings and then reports `NoConvergence`. How many
  doublings the source needs is not bounded.
- Atomless.TruncationSplitsGrid: the cdf is split at `sbari` only when it is
  non-decreasing. For other cdfs the point at `sbari` can have a cdf above one
  (`Series.CountIndexMissesUnsortedCdf`).
- `example/example.py` only calls `eq2p` and plots the results; only its quadratic cost appears here (`QuadraticCostGivesMonotoneCdf`).

## Findings

| source | as written | input that shows it | evidently intended | confidence | as-written member | corrected member |
|---|---|---|---|---|---|---|
| allpy/__init__.py:82 | the cost branch tests `len(v) == 1`, the length of the value argument | `eq2p(v=(1.0, 2.0), c=(f,))` raises the "c should be a tuple of length 1 or 2" `ValueError`; `eq2p(v=1.0, c=(f,))` raises `TypeError` from `len(1.0)` | `len(c) == 1`: a one-element cost tuple is shared by both players, as for `v` | not executed | Arguments.SplitCostAsWritten | Arguments.SplitCost |

`Arguments.OneCostTupleRejected` proves both rejections of the code as written.
`Arguments.CostAsWrittenAgreesWhereAccepted` proves that these one-element cost
tuples are exactly the inputs where it and the corrected reading differ.
`Normalise`, and through it `Eq2p`, uses the corrected `SplitCost`.

=== FILE: arguments.dfy ===
/** How `eq2p` reads its value and cost arguments: one item for both players, or
    one item per player. */
module Arguments {
  import opened Outcomes
  import opened Atomless

  /** A Python argument that is either a bare item (a number or a callable) or a tuple of items. */
  datatype Arg<T> = Single(item: T) | Tuple(items: seq<T>)

  /** One item for each of the two players. */
  datatype Pair<T> = Pair(first: T, second: T)

  /** Both players' inputs after normalisation. */
  datatype Players = Players(v1: Value, c1: Cost, v2: Value, c2: Cost)

  /** A bare item or a one-element tuple is given to both players, a two-element
      tuple is split between them, and any other length fails with `err`. */
  function Split<T>(a: Arg<T>, err: Error): (r: Result<Pair<T>, Error>)
    ensures r.Failure? <==> a.Tuple? && |a.items| != 1 && |a.items| != 2
    ensures r.Failure? ==> r.error == err
    ensures r.Success? && a.Single? ==> r.value.first == a.item && r.value.second == a.item
    ensures r.Success? && a.Tuple? ==> r.value.first == a.items[0] && r.value.second == a.items[|a.items| - 1]
  {
    match a
    case Single(x) => Success(Pair(x, x))
    case Tuple(xs) =>
      if |xs| == 2 then Success(Pair(xs[0], xs[1]))
      else if |xs| == 1 then Success(Pair(xs[0], xs[0]))
      else Failure(err)
  }

  /** Splitting a two-element tuple gives its two items back. */
  lemma SplitOfPair<T>(p: Pair<T>, err: Error)
    ensures Split(Tuple([p.first, p.second]), err) == Success(p)
  {
  }

  /** A bare item and the one-element tuple holding it are read the same way. */
  lemma SplitSingleAsTuple<T>(x: T, err: Error)
    ensures Split(Single(x), err) == Split(Tuple([x]), err)
    ensures Split(Single(x), err) == Success(Pair(x, x))
  {
  }

  /** How `eq2p` reads its value argument. */
  function SplitValue(v: Arg<Value>): (r: Result<Pair<Value>, Error>)
    ensures r.Failure? <==> v.Tuple? && |v.items| != 1 && |v.items| != 2
    ensures r.Failure? ==> r.error == ValueArity
    ensures r.Success? && (v.Single? || |v.items| == 1) ==> r.value.first == r.value.second
  {
    Split(v, ValueArity)
  }

  /** How `eq2p` reads its cost argument, as written: after the callable and two-element cases, the next
      test is on the length of `v`, not of `c`. A bare value has no length
      (TypeError); a one-element value unpacks `c` as a one-element tuple, which
      fails for any other length; a two-element value reaches the explicit raise. */
  function SplitCostAsWritten(c: Arg<Cost>, v: Arg<Value>): (r: Result<Pair<Cost>, Error>)
    requires SplitValue(v).Success?
    ensures r.Success? <==> c.Single? || |c.items| == 2 || (|c.items| == 1 && v.Tuple? && |v.items| == 1)
    ensures r.Failure? && v.Single? ==> r.error == ValueHasNoLength
    ensures r.Failure? && v.Tuple? && |v.items| == 1 ==> r.error == CostUnpack
    ensures r.Failure? && v.Tuple? && |v.items| == 2 ==> r.error == CostArity
  {
    match c
    case Single(f) => Success(Pair(f, f))
    case Tuple(fs) =>
      if |fs| == 2 then Success(Pair(fs[0], fs[1]))
      else
        match v
        case Single(_) => Failure(ValueHasNoLength)
        case Tuple(vs) =>
          if |vs| == 1 then
            if |fs| == 1 then Success(Pair(fs[0], fs[0])) else Failure(CostUnpack)
          else Failure(CostArity)
  }

  /** The cost argument read the way the value argument is (the evidently intended
      `len(c) == 1` test). */
  function SplitCost(c: Arg<Cost>): (r: Result<Pair<Cost>, Error>)
    ensures r.Failure? <==> c.Tuple? && |c.items| != 1 && |c.items| != 2
    ensures r.Failure? ==> r.error == CostArity
    ensures r.Success? && (c.Single? || |c.items| == 1) ==> r.value.first == r.value.second
  {
    Split(c, CostArity)
  }

  /** Where the code as written accepts a cost argument it reads it as intended;
      it wrongly rejects exactly the one-element cost tuples that come with a value
      argument other than a one-element tuple. */
  lemma CostAsWrittenAgreesWhereAccepted(c: Arg<Cost>, v: Arg<Value>)
    requires SplitValue(v).Success?
    ensures SplitCostAsWritten(c, v).Success? ==> SplitCostAsWritten(c, v) == SplitCost(c)
    ensures SplitCost(c).Success? && SplitCostAsWritten(c, v).Failure? <==>
      c.Tuple? && |c.items| == 1 && !(v.Tuple? && |v.items| == 1)
  {
  }

  /** Two inputs the code as written rejects although one cost function for both
      players is meant: a one-element cost tuple with two values, and with one bare value. */
  lemma OneCostTupleRejected(f: Cost, p: Value, q: Value)
    ensures SplitCostAsWritten(Tuple([f]), Tuple([p, q])) == Failure(CostArity)
    ensures SplitCostAsWritten(Tuple([f]), Single(p)) == Failure(ValueHasNoLength)
    ensures SplitCost(Tuple([f])) == Success(Pair(f, f))
  {
  }

  /** `eq2p`'s reading of both arguments, with the cost argument read as intended: player 1 takes the first
      value and cost, player 2 the second. */
  function Normalise(v: Arg<Value>, c: Arg<Cost>): (r: Result<Players, Error>)
    ensures r.Failure? <==> SplitValue(v).Failure? || SplitCost(c).Failure?
    ensures r.Failure? && SplitValue(v).Failure? ==> r.error == ValueArity
    ensures r.Failure? && SplitValue(v).Success? ==> r.error == CostArity
    ensures r.Success? ==>
      && r.value.v1 == SplitValue(v).value.first && r.value.v2 == SplitValue(v).value.second
      && r.value.c1 == SplitCost(c).value.first && r.value.c2 == SplitCost(c).value.second
  {
    var vs :- SplitValue(v);
    var cs :- SplitCost(c);
    Success(Players(vs.first, cs.first, vs.second, cs.second))
  }

  /** With one value and one cost for both, the two players are identical. */
  lemma BroadcastGivesSymmetricPlayers(v: Value, f: Cost)
    ensures Normalise(Single(v), Single(f)) == Success(Players(v, f, v, f))
    ensures Normalise(Tuple([v]), Tuple([f])) == Success(Players(v, f, v, f))
  {
  }
}

=== FILE: atomless.dfy ===
/** The single-player solver `gtilde`: on a uniform grid of `num` scores up to the
    bound `b`, the atomless cdf of one player's equilibrium strategy, its density,
    the truncation index (for `b > 0`, one less than the number of grid points
    whose cdf is at most one; the first point for `b <= 0`), and whether the bound
    was large enough for the cdf to pass one. */
module Atomless {
  import opened Outcomes
  import opened Series

  /** A value function `v(own score, opponent score)`. */
  type Kernel = (real, real) -> real

  /** A cost function `c(own score)`. */
  type Cost = real -> real

  /** A player's value: a constant prize, or a function of both scores. */
  datatype Value = Const(prize: real) | Func(kernel: Kernel)

  /** The external first-kind Volterra solver: from the kernel, the cost, the bound
      and the grid size, the (unscaled) density at each grid point. */
  type VolterraSolver = (Kernel, Cost, real, nat) -> seq<real>

  /** The external solver returns one density value per grid point. */
  ghost predicate WellShaped(solve: VolterraSolver) {
    forall k, c, b, n :: |solve(k, c, b, n)| == n
  }

  /** The dictionary `gtilde` returns. */
  datatype Distribution = Distribution(
    s: seq<real>,     // the score grid
    pdf: seq<real>,   // the density, multiplied by `num`
    cdf: seq<real>,   // the atomless cdf
    sbari: nat,       // truncation index
    sbar: real,       // truncation score
    success: bool)    // the cdf passed one by the end of the grid

  /** Every array has one entry per grid point and the truncation index lies on the grid. */
  predicate Shaped(d: Distribution, num: nat) {
    |d.s| == num && |d.pdf| == num && |d.cdf| == num && d.sbari < num
  }

  /** `numpy.linspace(start, stop, n)` over exact reals. */
  function Linspace(start: real, stop: real, n: nat): (r: seq<real>)
    ensures |r| == n
  {
    if n == 1 then [start]
    else
      var step := (stop - start) / (n - 1) as real;
      seq(n, i requires 0 <= i < n => start + i as real * step)
  }

  /** The reference grid: point `i` is `(i + 1) * b / num`. */
  function UniformGrid(b: real, num: nat): (s: seq<real>)
    ensures |s| == num
  {
    if num == 0 then [] else seq(num, i requires 0 <= i < num => (i + 1) as real * (b / num as real))
  }

  /** The grid starts at `b / num`, ends at `b` and is evenly spaced `b / num` apart. */
  lemma UniformGridEnds(b: real, num: nat)
    requires num > 0
    ensures UniformGrid(b, num)[0] == b / num as real
    ensures UniformGrid(b, num)[num - 1] == b
    ensures forall i :: 0 < i < num ==> UniformGrid(b, num)[i] - UniformGrid(b, num)[i - 1] == b / num as real
  {
    var h := b / num as real;
    var s := UniformGrid(b, num);
    CancelDivision(b, num as real);
    forall i | 0 < i < num
      ensures s[i] - s[i - 1] == h
    {
      Distribute(i as real, h);
    }
  }

  /** For a positive bound the grid points are positive and strictly increasing. */
  lemma UniformGridIncreasing(b: real, num: nat)
    requires b > 0.0
    ensures StrictlyIncreasing(UniformGrid(b, num))
    ensures forall i :: 0 <= i < num ==> UniformGrid(b, num)[i] > 0.0
  {
    if num > 0 {
      var h := b / num as real;
      var s := UniformGrid(b, num);
      PositiveQuotient(b, num as real);
      forall i | 0 <= i < num
        ensures s[i] > 0.0
      {
        PositiveProduct((i + 1) as real, h);
      }
      forall i, j | 0 <= i < j < num
        ensures s[i] < s[j]
      {
        Distribute2((i + 1) as real, (j + 1) as real, h);
        PositiveProduct((j - i) as real, h);
        assert s[j] - s[i] == (j - i) as real * h;
      }
    }
  }

  /** For `b <= 0` the grid never rises: it falls for `b < 0` and is all zeros for `b = 0`. */
  lemma UniformGridNonIncreasing(b: real, num: nat)
    requires b <= 0.0
    ensures NonIncreasing(UniformGrid(b, num))
  {
  }

  lemma PositiveQuotient(b: real, n: real)
    requires b > 0.0 && n > 0.0
    ensures b / n > 0.0
  {
  }

  lemma CancelDivision(b: real, n: real)
    requires n != 0.0
    ensures n * (b / n) == b
  {
  }

  lemma Distribute(x: real, h: real)
    ensures (x + 1.0) * h - x * h == h
  {
  }

  lemma Distribute2(x: real, y: real, h: real)
    ensures y * h - x * h == (y - x) * h
  {
  }

  lemma PositiveProduct(x: real, y: real)
    requires x > 0.0 && y > 0.0
    ensures x * y > 0.0
  {
  }

  /** The grid of `gtilde`'s constant-prize branch, `linspace(b / num, b, num)`, is the uniform grid. */
  lemma LinspaceIsUniformGrid(b: real, num: nat)
    requires num > 0
    ensures Linspace(b / num as real, b, num) == UniformGrid(b, num)
  {
    var h := b / num as real;
    if num > 1 {
      var step := (b - h) / (num - 1) as real;
      assert b - h == (num - 1) as real * h;
      assert step == h;
      var l, u := Linspace(h, b, num), UniformGrid(b, num);
      forall i | 0 <= i < num
        ensures l[i] == u[i]
      {
        assert l[i] == h + i as real * step;
      }
    }
  }

  /** The grid, the unscaled density and the atomless cdf, before truncation. */
  datatype Candidate = Candidate(s: seq<real>, pdf: seq<real>, cdf: seq<real>)

  /** The two branches of `gtilde` for a non-empty grid: the external solver and a
      running sum for a value function, the closed form and its first differences
      for a constant prize. Only a zero constant prize fails. */
  function AtomlessCdf(solve: VolterraSolver, v: Value, c: Cost, b: real, num: nat): (r: Result<Candidate, Error>)
    requires WellShaped(solve)
    requires num > 0
    ensures r.Failure? <==> v.Const? && v.prize == 0.0
    ensures r.Failure? ==> r.error == ZeroPrize
    ensures r.Success? ==> |r.value.s| == num && |r.value.pdf| == num && |r.value.cdf| == num
    ensures r.Success? && v.Const? ==>
      forall i :: 0 <= i < num ==> r.value.cdf[i] == c(r.value.s[i]) / v.prize
    ensures r.Success? && v.Func? ==> r.value.pdf == solve(v.kernel, c, b, num)
  {
    var s := UniformGrid(b, num);
    match v
    case Func(k) =>
      var pdf := solve(k, c, b, num);
      Success(Candidate(s, pdf, CumSum(Scale(pdf, b / num as real))))
    case Const(prize) =>
      if prize == 0.0 then Failure(ZeroPrize)
      else
        var cdf := seq(num, i requires 0 <= i < num => c(s[i]) / prize);
        Success(Candidate(s, FirstDiff(cdf), cdf))
  }

  /** `argmax(s[cdf <= 1])`: on an increasing grid, one less than the number of points whose cdf is at most one; on a non-increasing grid, the first point. */
  function TruncationIndex(s: seq<real>, cdf: seq<real>): (r: Result<nat, Error>)
    requires |s| == |cdf|
    ensures r.Failure? <==> CountAtMostOne(cdf) == 0
    ensures r.Failure? ==> r.error == NoPointAtOrBelowOne
    ensures r.Success? ==> r.value < CountAtMostOne(cdf) <= |s|
    ensures r.Success? && StrictlyIncreasing(s) ==> r.value == CountAtMostOne(cdf) - 1
    ensures r.Success? && NonIncreasing(s) ==> r.value == 0
  {
    var kept := SelectAtMostOne(s, cdf);
    if |kept| == 0 then Failure(NoPointAtOrBelowOne)
    else
      assert StrictlyIncreasing(s) ==> ArgMax(kept) == |kept| - 1 by {
        if StrictlyIncreasing(s) {
          SelectKeepsIncreasing(s, cdf);
          ArgMaxOfIncreasing(kept);
        }
      }
      assert NonIncreasing(s) ==> ArgMax(kept) == 0 by {
        if NonIncreasing(s) {
          SelectKeepsNonIncreasing(s, cdf);
          ArgMaxOfNonIncreasing(kept);
        }
      }
      Success(ArgMax(kept))
  }

  /** The end of `gtilde`: find the truncation index and report the result; the grid and cdf are kept whole. */
  function Truncate(cand: Candidate, num: nat): (r: Result<Distribution, Error>)
    requires |cand.s| == num && |cand.pdf| == num && |cand.cdf| == num
    ensures r.Failure? <==> CountAtMostOne(cand.cdf) == 0
    ensures r.Failure? ==> r.error == NoPointAtOrBelowOne
    ensures r.Success? ==> Shaped(r.value, num) && r.value.s == cand.s && r.value.cdf == cand.cdf
    ensures r.Success? ==> forall i :: 0 <= i < num ==> r.value.pdf[i] == num as real * cand.pdf[i]
    ensures r.Success? ==> r.value.sbar == r.value.s[r.value.sbari]
    ensures r.Success? ==> (r.value.success <==> r.value.cdf[num - 1] > 1.0)
    ensures r.Success? ==> r.value.sbari < CountAtMostOne(cand.cdf)
    ensures r.Success? && StrictlyIncreasing(cand.s) ==> r.value.sbari + 1 == CountAtMostOne(cand.cdf)
    ensures r.Success? && NonIncreasing(cand.s) ==> r.value.sbari == 0
  {
    var bari :- TruncationIndex(cand.s, cand.cdf);
    Success(Distribution(cand.s, Scale(cand.pdf, num as real), cand.cdf, bari, cand.s[bari], cand.cdf[num - 1] > 1.0))
  }

  /** `gtilde(v, c, b, num)`. */
  function Gtilde(solve: VolterraSolver, v: Value, c: Cost, b: real, num: nat): (r: Result<Distribution, Error>)
    requires WellShaped(solve)
    ensures num == 0 ==> r == Failure(ZeroGridSize)
    ensures r.Failure? ==> r.error in {ZeroGridSize, ZeroPrize, NoPointAtOrBelowOne}
    ensures r.Success? ==> Shaped(r.value, num) && r.value.s == UniformGrid(b, num)
    ensures r.Success? ==> r.value.sbar == r.value.s[r.value.sbari]
    ensures r.Success? ==> (r.value.success <==> r.value.cdf[num - 1] > 1.0)
    ensures r.Success? ==> r.value.sbari < CountAtMostOne(r.value.cdf)
    ensures r.Success? && b > 0.0 ==> r.value.sbari + 1 == CountAtMostOne(r.value.cdf)
    ensures r.Success? && b <= 0.0 ==> r.value.sbari == 0
  {
    if num == 0 then Failure(ZeroGridSize)
    else
      var cand :- AtomlessCdf(solve, v, c, b, num);
      assert b > 0.0 ==> StrictlyIncreasing(cand.s) by {
        if b > 0.0 {
          UniformGridIncreasing(b, num);
        }
      }
      assert b <= 0.0 ==> NonIncreasing(cand.s) by {
        if b <= 0.0 {
          UniformGridNonIncreasing(b, num);
        }
      }
      Truncate(cand, num)
  }

  /** For a non-empty grid `gtilde` fails with `ZeroPrize` exactly when the
      atomless stage does, and otherwise is the truncation of its candidate. */
  lemma GtildeStages(solve: VolterraSolver, v: Value, c: Cost, b: real, num: nat)
    requires WellShaped(solve)
    requires num > 0
    ensures AtomlessCdf(solve, v, c, b, num).Failure? ==> Gtilde(solve, v, c, b, num) == Failure(ZeroPrize)
    ensures AtomlessCdf(solve, v, c, b, num).Success? ==>
      Gtilde(solve, v, c, b, num) == Truncate(AtomlessCdf(solve, v, c, b, num).value, num)
  {
  }

  /** Grid point `i` is `(i + 1) * b / num`. */
  lemma UniformGridAt(b: real, num: nat, i: nat)
    requires i < num
    ensures UniformGrid(b, num)[i] == (i + 1) as real * (b / num as real)
  {
  }

  /** The constant-prize branch of `gtilde`: with a non-zero prize the cdf at grid point `i` is the
      cost at `(i + 1) * b / num` over the prize, and the density is its first
      differences, so that the running sum of the density gives the cdf back. */
  lemma ConstantPrizeClosedForm(solve: VolterraSolver, prize: real, c: Cost, b: real, num: nat)
    requires WellShaped(solve)
    requires num > 0 && prize != 0.0
    ensures var cand := AtomlessCdf(solve, Const(prize), c, b, num).value;
      forall i :: 0 <= i < num ==> cand.cdf[i] == c((i + 1) as real * (b / num as real)) / prize
    ensures var cand := AtomlessCdf(solve, Const(prize), c, b, num).value;
      && cand.pdf[0] == cand.cdf[0]
      && (forall i :: 0 < i < num ==> cand.pdf[i] == cand.cdf[i] - cand.cdf[i - 1])
    ensures var cand := AtomlessCdf(solve, Const(prize), c, b, num).value;
      CumSum(cand.pdf) == cand.cdf
  {
    var cand := AtomlessCdf(solve, Const(prize), c, b, num).value;
    forall i | 0 <= i < num
      ensures cand.cdf[i] == c((i + 1) as real * (b / num as real)) / prize
    {
      UniformGridAt(b, num, i);
    }
    assert cand.pdf == FirstDiff(cand.cdf);
    CumSumOfFirstDiff(cand.cdf);
  }

  /** The value-function branch of `gtilde`: the density is the external solver's
      output, and the cdf starts at `b / num` times its first entry and rises by
      `b / num` times each later entry. */
  lemma ValueFunctionRunningSum(solve: VolterraSolver, k: Kernel, c: Cost, b: real, num: nat)
    requires WellShaped(solve)
    requires num > 0
    ensures var cand := AtomlessCdf(solve, Func(k), c, b, num).value; var g := solve(k, c, b, num);
      && cand.pdf == g
      && cand.cdf[0] == (b / num as real) * g[0]
      && (forall i :: 0 < i < num ==> cand.cdf[i] - cand.cdf[i - 1] == (b / num as real) * g[i])
  {
    var g := solve(k, c, b, num);
    var h := b / num as real;
    var cand := AtomlessCdf(solve, Func(k), c, b, num).value;
    assert cand.cdf == CumSum(Scale(g, h));
    ScaledRunningSum(g, h);
  }

  /** The value-function cdf is `b / num` times the running sum of the solver's density. */
  lemma ValueFunctionCdfIsScaledRunningSum(solve: VolterraSolver, k: Kernel, c: Cost, b: real, num: nat)
    requires WellShaped(solve)
    requires num > 0
    ensures AtomlessCdf(solve, Func(k), c, b, num).value.cdf == Scale(CumSum(solve(k, c, b, num)), b / num as real)
  {
    var g := solve(k, c, b, num);
    var h := b / num as real;
    assert AtomlessCdf(solve, Func(k), c, b, num).value.cdf == CumSum(Scale(g, h));
    CumSumScale(g, h);
  }

  /** The running sum of `h * g` starts at `h * g[0]` and goes up by `h * g[i]` at step `i`. */
  lemma ScaledRunningSum(g: seq<real>, h: real)
    requires |g| > 0
    ensures var r := CumSum(Scale(g, h));
      && r[0] == h * g[0]
      && (forall i :: 0 < i < |g| ==> r[i] - r[i - 1] == h * g[i])
  {
    var scaled := Scale(g, h);
    CumSumSteps(scaled, 0);
    forall i | 0 < i < |g|
      ensures CumSum(scaled)[i] - CumSum(scaled)[i - 1] == h * g[i]
    {
      CumSumSteps(scaled, i);
    }
  }

  /** `gtilde`'s truncation index on an increasing grid and a non-decreasing cdf: the cdf is at most
      one up to the truncation index and above one after it, and the bound was
      large enough exactly when the truncation index is not the last grid point. */
  lemma TruncationSplitsGrid(cand: Candidate, num: nat)
    requires |cand.s| == num && |cand.pdf| == num && |cand.cdf| == num
    requires StrictlyIncreasing(cand.s) && NonDecreasing(cand.cdf)
    requires Truncate(cand, num).Success?
    ensures var d := Truncate(cand, num).value;
      && (forall i :: 0 <= i <= d.sbari ==> d.cdf[i] <= 1.0)
      && (forall i :: d.sbari < i < num ==> d.cdf[i] > 1.0)
      && (d.success <==> d.sbari < num - 1)
  {
    CountSplitsNonDecreasing(cand.cdf);
  }

  /** For a non-decreasing cdf, `gtilde`'s cdf is at most one at the truncation
      index, whatever the sign of the bound: the atom `eq2p` later puts at zero is
      non-negative. */
  lemma CutoffAtMostOne(solve: VolterraSolver, v: Value, c: Cost, b: real, num: nat)
    requires WellShaped(solve)
    ensures var r := Gtilde(solve, v, c, b, num);
      r.Success? && NonDecreasing(r.value.cdf) ==> r.value.cdf[r.value.sbari] <= 1.0
  {
    var r := Gtilde(solve, v, c, b, num);
    if r.Success? && NonDecreasing(r.value.cdf) {
      var d := r.value;
      BelowCountAtMostOne(d.cdf, d.sbari);
    }
  }

  /** With a positive prize, a positive bound and a cost that is non-decreasing on
      positive scores, the closed-form cdf is non-decreasing: every grid point is
      positive, so the cost's behaviour below zero does not matter. */
  lemma IncreasingCostGivesMonotoneCdf(solve: VolterraSolver, prize: real, c: Cost, b: real, num: nat)
    requires WellShaped(solve)
    requires num > 0 && prize > 0.0 && b > 0.0
    requires forall x, y :: 0.0 < x <= y ==> c(x) <= c(y)
    ensures NonDecreasing(AtomlessCdf(solve, Const(prize), c, b, num).value.cdf)
  {
    var cand := AtomlessCdf(solve, Const(prize), c, b, num).value;
    UniformGridIncreasing(b, num);
    forall i | 0 < i < num
      ensures cand.cdf[i - 1] <= cand.cdf[i]
    {
      assert 0.0 < cand.s[i - 1] < cand.s[i];
      DivideMonotone(c(cand.s[i - 1]), c(cand.s[i]), prize);
    }
    StepsGiveNonDecreasing(cand.cdf);
  }

  /** The quadratic cost `s ** 2` is not monotone on all reals but is on positive
      scores, so its closed-form cdf is non-decreasing for a positive bound. */
  lemma QuadraticCostGivesMonotoneCdf(solve: VolterraSolver, prize: real, b: real, num: nat)
    requires WellShaped(solve)
    requires num > 0 && prize > 0.0 && b > 0.0
    ensures NonDecreasing(AtomlessCdf(solve, Const(prize), x => x * x, b, num).value.cdf)
  {
    var sq: Cost := x => x * x;
    forall x, y | 0.0 < x <= y
      ensures sq(x) <= sq(y)
    {
      SquareMonotone(x, y);
    }
    IncreasingCostGivesMonotoneCdf(solve, prize, sq, b, num);
  }

  lemma SquareMonotone(x: real, y: real)
    requires 0.0 < x <= y
    ensures x * x <= y * y
  {
    assert x * x <= x * y;
  }

  lemma DivideMonotone(x: real, y: real, p: real)
    requires x <= y && p > 0.0
    ensures x / p <= y / p
  {
  }

  /** With a positive bound and a non-negative density from the external solver,
      the running-sum cdf is non-decreasing. */
  lemma NonNegativeDensityGivesMonotoneCdf(solve: VolterraSolver, k: Kernel, c: Cost, b: real, num: nat)
    requires WellShaped(solve)
    requires num > 0 && b > 0.0
    requires forall i :: 0 <= i < |solve(k, c, b, num)| ==> solve(k, c, b, num)[i] >= 0.0
    ensures NonDecreasing(AtomlessCdf(solve, Func(k), c, b, num).value.cdf)
  {
    var cand := AtomlessCdf(solve, Func(k), c, b, num).value;
    var g := solve(k, c, b, num);
    var h := b / num as real;
    ValueFunctionRunningSum(solve, k, c, b, num);
    PositiveQuotient(b, num as real);
    forall i | 0 < i < num
      ensures cand.cdf[i - 1] <= cand.cdf[i]
    {
      NonNegativeProduct(h, g[i]);
    }
    StepsGiveNonDecreasing(cand.cdf);
  }

  lemma NonNegativeProduct(x: real, y: real)
    requires x >= 0.0 && y >= 0.0
    ensures x * y >= 0.0
  {
  }
}

=== FILE: equilibrium.dfy ===
/** The two-player solver `eq2p`: a default bound, a doubling search for a bound at
    which one player's atomless cdf passes one, and the common truncation with the
    shift that puts the remaining mass in an atom at zero. */
module Equilibrium {
  import opened Outcomes
  import opened Series
  import opened Atomless
  import opened Arguments

  /** `v(0, 0)` for a value function, the constant itself for a prize. */
  function PrizeAtOrigin(v: Value): real
  {
    match v
    case Const(p) => p
    case Func(k) => k(0.0, 0.0)
  }

  /** One player's default bound `v(0, 0) / (c(1 / num) * num)`. */
  function GuessFor(v: Value, c: Cost, num: nat): (r: Result<real, Error>)
    ensures num == 0 ==> r == Failure(ZeroGridSize)
    ensures r.Failure? <==> num == 0 || c(1.0 / num as real) * num as real == 0.0
    ensures r.Failure? && num > 0 ==> r.error == ZeroGuessDenominator
    ensures r.Success? ==> r.value * (c(1.0 / num as real) * num as real) == PrizeAtOrigin(v)
  {
    if num == 0 then Failure(ZeroGridSize)
    else
      var denominator := c(1.0 / num as real) * num as real;
      if denominator == 0.0 then Failure(ZeroGuessDenominator)
      else
        assert PrizeAtOrigin(v) / denominator * denominator == PrizeAtOrigin(v);
        Success(PrizeAtOrigin(v) / denominator)
  }

  /** The linear cost `c(x) = x`, the default of both entry points. */
  function LinearCost(x: real): real
  {
    x
  }

  /** With the linear cost the default bound is the prize itself. */
  lemma LinearCostGuessIsPrize(v: Value, num: nat)
    requires num > 0
    ensures GuessFor(v, LinearCost, num) == Success(PrizeAtOrigin(v))
  {
    var c: Cost := LinearCost;
    assert c(1.0 / num as real) * num as real == 1.0;
    assert GuessFor(v, LinearCost, num).value == PrizeAtOrigin(v);
  }

  /** `eq2p`'s default bound: the smaller of the two players' guesses. */
  function BoundGuess(p: Players, num: nat): (r: Result<real, Error>)
    ensures r.Success? <==> GuessFor(p.v1, p.c1, num).Success? && GuessFor(p.v2, p.c2, num).Success?
    ensures r.Failure? && GuessFor(p.v1, p.c1, num).Failure? ==> r == GuessFor(p.v1, p.c1, num).PropagateFailure()
    ensures r.Success? ==>
      && r.value <= GuessFor(p.v1, p.c1, num).value
      && r.value <= GuessFor(p.v2, p.c2, num).value
      && (r.value == GuessFor(p.v1, p.c1, num).value || r.value == GuessFor(p.v2, p.c2, num).value)
  {
    var b1 :- GuessFor(p.v1, p.c1, num);
    var b2 :- GuessFor(p.v2, p.c2, num);
    Success(if b2 < b1 then b2 else b1)
  }

  /** The two single-player solutions of one round of the search. */
  datatype Round = Round(player1: Distribution, player2: Distribution)

  /** One round of `eq2p`'s search: the players' roles are crossed, so player 2's
      distribution is solved from player 1's value and cost and the other way
      round. Player 2 is solved first, so its error is the one reported when both
      would fail. */
  function PlayRound(solve: VolterraSolver, p: Players, b: real, num: nat): (r: Result<Round, Error>)
    requires WellShaped(solve)
    ensures r.Success? <==> Gtilde(solve, p.v1, p.c1, b, num).Success? && Gtilde(solve, p.v2, p.c2, b, num).Success?
    ensures r.Failure? && Gtilde(solve, p.v1, p.c1, b, num).Failure? ==> r.error == Gtilde(solve, p.v1, p.c1, b, num).error
    ensures r.Success? ==>
      && r.value.player2 == Gtilde(solve, p.v1, p.c1, b, num).value
      && r.value.player1 == Gtilde(solve, p.v2, p.c2, b, num).value
    ensures r.Success? ==> Shaped(r.value.player1, num) && Shaped(r.value.player2, num)
  {
    var player2 :- Gtilde(solve, p.v1, p.c1, b, num);
    var player1 :- Gtilde(solve, p.v2, p.c2, b, num);
    Success(Round(player1, player2))
  }

  /** `eq2p`'s stopping test: at least one player's atomless cdf passed one. */
  predicate Settled(round: Round) {
    round.player1.success || round.player2.success
  }

  /** One round of the search as a function of the bound. */
  type Play = real -> Result<Round, Error>

  /** The round at bound `b` is solved and is not settled: the search doubles `b`. */
  predicate Unsettled(play: Play, b: real) {
    play(b).Success? && !Settled(play(b).value)
  }

  /** The round at bound `b` is solved and settled: the search stops at `b`. */
  predicate SettlesAt(play: Play, b: real) {
    play(b).Success? && Settled(play(b).value)
  }

  /** What the search stops with: the settled round and the bound it was played at. */
  datatype Found = Found(round: Round, b: real)

  /** `eq2p`'s search loop with at most `fuel` doublings: play a round, stop if it is
      settled, otherwise double the bound and play again. A round that fails ends
      the search with its error. */
  function Search(play: Play, b: real, fuel: nat): (r: Result<Found, Error>)
    ensures r.Success? ==> Settled(r.value.round) && play(r.value.b) == Success(r.value.round)
    ensures r.Failure? && play(b).Failure? ==> r.error == play(b).error
    decreases fuel
  {
    var round :- play(b);
    if Settled(round) then Success(Found(round, b))
    else if fuel == 0 then Failure(NoConvergence)
    else Search(play, 2.0 * b, fuel - 1)
  }

  /** The bound after `k` doublings of `b`: never closer to zero than `b`. */
  function Doubled(b: real, k: nat): (r: real)
    ensures b >= 0.0 ==> r >= b
    ensures b <= 0.0 ==> r <= b
  {
    if k == 0 then b else 2.0 * Doubled(b, k - 1)
  }

  /** `2^k` as a real. */
  function Pow2(k: nat): real
  {
    if k == 0 then 1.0 else 2.0 * Pow2(k - 1)
  }

  /** Doubling `k` times multiplies by `2^k`. */
  lemma {:induction false} DoubledIsPowerOfTwo(b: real, k: nat)
    ensures Doubled(b, k) == b * Pow2(k)
  {
    if k > 0 {
      DoubledIsPowerOfTwo(b, k - 1);
      assert 2.0 * (b * Pow2(k - 1)) == b * (2.0 * Pow2(k - 1));
    }
  }

  /** Doubling first and then `k` times more is doubling `k + 1` times. */
  lemma {:induction false} DoubledShift(b: real, k: nat)
    ensures Doubled(2.0 * b, k) == Doubled(b, k + 1)
  {
    if k > 0 {
      DoubledShift(b, k - 1);
    }
  }

  /** After `k` unsettled rounds the search stops at the bound `b * 2^k` if that
      round settles and the budget allows `k` doublings. */
  lemma {:induction false} SearchStopsAtFirstSettled(play: Play, b: real, fuel: nat, k: nat)
    requires k <= fuel
    requires forall j :: 0 <= j < k ==> Unsettled(play, Doubled(b, j))
    requires SettlesAt(play, Doubled(b, k))
    ensures Search(play, b, fuel) == Success(Found(play(Doubled(b, k)).value, Doubled(b, k)))
    decreases k
  {
    if k > 0 {
      assert Unsettled(play, Doubled(b, 0));
      var b2 := 2.0 * b;
      forall j | 0 <= j < k - 1
        ensures Unsettled(play, Doubled(b2, j))
      {
        DoubledShift(b, j);
        assert Unsettled(play, Doubled(b, j + 1));
      }
      DoubledShift(b, k - 1);
      SearchStopsAtFirstSettled(play, b2, fuel - 1, k - 1);
    }
  }

  /** How many times the search doubles the bound before it stops. */
  function Doublings(play: Play, b: real, fuel: nat): nat
    decreases fuel
  {
    if play(b).Failure? || Settled(play(b).value) || fuel == 0 then 0
    else 1 + Doublings(play, 2.0 * b, fuel - 1)
  }

  /** A successful search stops at `b` doubled `k` times for a `k` within the
      budget, and every earlier round was unsettled. */
  lemma {:induction false} SearchBoundIsDoubled(play: Play, b: real, fuel: nat)
    requires Search(play, b, fuel).Success?
    ensures Doublings(play, b, fuel) <= fuel
    ensures Search(play, b, fuel).value.b == Doubled(b, Doublings(play, b, fuel))
    ensures forall j :: 0 <= j < Doublings(play, b, fuel) ==> Unsettled(play, Doubled(b, j))
    decreases fuel
  {
    if !Settled(play(b).value) {
      assert Unsettled(play, Doubled(b, 0));
      var b2 := 2.0 * b;
      var k := Doublings(play, b2, fuel - 1);
      SearchBoundIsDoubled(play, b2, fuel - 1);
      DoubledShift(b, k);
      forall j | 0 < j < k + 1
        ensures Unsettled(play, Doubled(b, j))
      {
        DoubledShift(b, j - 1);
        assert Unsettled(play, Doubled(b2, j - 1));
      }
    }
  }

  /** If none of the `fuel + 1` rounds the budget allows settles, the search gives up. */
  lemma {:induction false} SearchGivesUp(play: Play, b: real, fuel: nat)
    requires forall j :: 0 <= j <= fuel ==> Unsettled(play, Doubled(b, j))
    ensures Search(play, b, fuel) == Failure(NoConvergence)
    decreases fuel
  {
    assert Unsettled(play, Doubled(b, 0));
    if fuel > 0 {
      var b2 := 2.0 * b;
      forall j | 0 <= j <= fuel - 1
        ensures Unsettled(play, Doubled(b2, j))
      {
        DoubledShift(b, j);
        assert Unsettled(play, Doubled(b, j + 1));
      }
      SearchGivesUp(play, b2, fuel - 1);
    }
  }

  /** The dictionary `eq2p` returns; `pdf` and `cdf` hold player 1's array first. */
  datatype Equilibrium = Equilibrium(
    s: seq<real>,
    pdf: Pair<seq<real>>,
    cdf: Pair<seq<real>>,
    sbari: nat,
    sbar: real,
    b: real)

  /** The end of `eq2p`: cut both players at the smaller truncation index and shift each
      cdf so that it ends at one; the shift is the atom at zero. */
  function Reconcile(round: Round, b: real, num: nat): (e: Equilibrium)
    requires Shaped(round.player1, num) && Shaped(round.player2, num)
    ensures e.sbari <= round.player1.sbari && e.sbari <= round.player2.sbari
    ensures e.sbari == round.player1.sbari || e.sbari == round.player2.sbari
    ensures |e.s| == e.sbari + 1 && |e.pdf.first| == e.sbari + 1 && |e.pdf.second| == e.sbari + 1
    ensures |e.cdf.first| == e.sbari + 1 && |e.cdf.second| == e.sbari + 1
    ensures e.s == round.player1.s[..e.sbari + 1] && e.sbar == e.s[e.sbari]
    ensures e.pdf.first == round.player1.pdf[..e.sbari + 1] && e.pdf.second == round.player2.pdf[..e.sbari + 1]
    ensures e.cdf.first[e.sbari] == 1.0 && e.cdf.second[e.sbari] == 1.0
    ensures forall i :: 0 < i <= e.sbari ==>
      && e.cdf.first[i] - e.cdf.first[i - 1] == round.player1.cdf[i] - round.player1.cdf[i - 1]
      && e.cdf.second[i] - e.cdf.second[i - 1] == round.player2.cdf[i] - round.player2.cdf[i - 1]
    ensures forall i :: 0 <= i <= e.sbari ==>
      && e.cdf.first[i] - round.player1.cdf[i] == 1.0 - round.player1.cdf[e.sbari]
      && e.cdf.second[i] - round.player2.cdf[i] == 1.0 - round.player2.cdf[e.sbari]
    ensures e.b == b
  {
    var bari := if round.player2.sbari < round.player1.sbari then round.player2.sbari else round.player1.sbari;
    var s := round.player1.s[..bari + 1];
    Equilibrium(
      s,
      Pair(round.player1.pdf[..bari + 1], round.player2.pdf[..bari + 1]),
      Pair(ShiftToOne(round.player1.cdf[..bari + 1]), ShiftToOne(round.player2.cdf[..bari + 1])),
      bari,
      s[|s| - 1],
      b)
  }

  /** The shifted cdfs are the only ones that end at one and keep every step of the
      truncated atomless cdfs. */
  lemma ReconciledCdfIsUnique(round: Round, b: real, num: nat, g: seq<real>)
    requires Shaped(round.player1, num) && Shaped(round.player2, num)
    requires |g| == Reconcile(round, b, num).sbari + 1 && g[|g| - 1] == 1.0
    requires forall i :: 0 < i < |g| ==> g[i] - g[i - 1] == round.player1.cdf[i] - round.player1.cdf[i - 1]
    ensures g == Reconcile(round, b, num).cdf.first
  {
    var e := Reconcile(round, b, num);
    var cut := round.player1.cdf[..e.sbari + 1];
    forall i | 0 < i < |g|
      ensures g[i] - g[i - 1] == cut[i] - cut[i - 1]
    {
    }
    ShiftToOneIsUnique(cut, g);
  }

  /** `eq2p`'s cut and shift: when each player's atomless cdf is non-decreasing and
      at most one at its own truncation index, the mass each shifted cdf puts at
      zero is non-negative, and each shifted cdf is non-decreasing and at most one. */
  lemma AtomsNonNegative(round: Round, b: real, num: nat)
    requires Shaped(round.player1, num) && Shaped(round.player2, num)
    requires NonDecreasing(round.player1.cdf) && round.player1.cdf[round.player1.sbari] <= 1.0
    requires NonDecreasing(round.player2.cdf) && round.player2.cdf[round.player2.sbari] <= 1.0
    ensures var e := Reconcile(round, b, num);
      && 1.0 - round.player1.cdf[e.sbari] >= 0.0
      && 1.0 - round.player2.cdf[e.sbari] >= 0.0
    ensures var e := Reconcile(round, b, num);
      && NonDecreasing(e.cdf.first) && NonDecreasing(e.cdf.second)
      && (forall i :: 0 <= i <= e.sbari ==> e.cdf.first[i] <= 1.0 && e.cdf.second[i] <= 1.0)
  {
    var e := Reconcile(round, b, num);
    assert round.player1.cdf[e.sbari] <= round.player1.cdf[round.player1.sbari];
    assert round.player2.cdf[e.sbari] <= round.player2.cdf[round.player2.sbari];
  }

  /** A solved round whose two atomless cdfs are non-decreasing, at any bound, is
      cut and shifted into two non-decreasing cdfs at most one, with non-negative
      atoms at zero. */
  lemma RoundAtomsNonNegative(solve: VolterraSolver, p: Players, b: real, num: nat)
    requires WellShaped(solve)
    ensures var r := PlayRound(solve, p, b, num);
      r.Success? && NonDecreasing(r.value.player1.cdf) && NonDecreasing(r.value.player2.cdf) ==>
        var e := Reconcile(r.value, b, num);
        && 1.0 - r.value.player1.cdf[e.sbari] >= 0.0
        && 1.0 - r.value.player2.cdf[e.sbari] >= 0.0
        && NonDecreasing(e.cdf.first) && NonDecreasing(e.cdf.second)
  {
    var r := PlayRound(solve, p, b, num);
    if r.Success? && NonDecreasing(r.value.player1.cdf) && NonDecreasing(r.value.player2.cdf) {
      CutoffAtMostOne(solve, p.v1, p.c1, b, num);
      CutoffAtMostOne(solve, p.v2, p.c2, b, num);
      AtomsNonNegative(r.value, b, num);
    }
  }

  /** The rounds the search plays for the normalised players: the bound varies, the rest is fixed. */
  function Rounds(solve: VolterraSolver, p: Players, num: nat): Play
    requires WellShaped(solve)
  {
    b => PlayRound(solve, p, b, num)
  }

  /** `eq2p`'s starting bound: the given one, or the default guess when none is given. */
  function StartBound(p: Players, bound: Option<real>, num: nat): (r: Result<real, Error>)
    ensures bound.Some? ==> r == Success(bound.value)
    ensures bound.None? ==> r == BoundGuess(p, num)
    ensures bound.None? ==> (r.Success? <==> GuessFor(p.v1, p.c1, num).Success? && GuessFor(p.v2, p.c2, num).Success?)
  {
    match bound
    case Some(b) => Success(b)
    case None => BoundGuess(p, num)
  }

  /** `eq2p`: normalise the arguments, take the given bound or the default
      guess, search with at most `fuel` doublings and reconcile the settled round. */
  function Eq2p(solve: VolterraSolver, v: Arg<Value>, c: Arg<Cost>, bound: Option<real>, num: nat, fuel: nat): (r: Result<Equilibrium, Error>)
    requires WellShaped(solve)
    ensures r.Success? ==> Normalise(v, c).Success?
    ensures r.Success? ==> num > 0 && |r.value.s| == r.value.sbari + 1
    ensures r.Success? ==> |r.value.cdf.first| == r.value.sbari + 1 && |r.value.cdf.second| == r.value.sbari + 1
    ensures r.Success? ==> r.value.sbar == r.value.s[r.value.sbari]
    ensures r.Success? ==> r.value.cdf.first[r.value.sbari] == 1.0 && r.value.cdf.second[r.value.sbari] == 1.0
  {
    var p :- Normalise(v, c);
    var b0 :- StartBound(p, bound, num);
    var found :- Search(Rounds(solve, p, num), b0, fuel);
    Success(Reconcile(found.round, found.b, num))
  }

  /** A successful `eq2p` reconciles the round of the first doubled bound
      that settled, and reports that bound. */
  lemma Eq2pReportsSettledBound(solve: VolterraSolver, v: Arg<Value>, c: Arg<Cost>, bound: Option<real>, num: nat, fuel: nat)
    requires WellShaped(solve)
    ensures Eq2p(solve, v, c, bound, num, fuel).Success? ==>
      Normalise(v, c).Success? && StartBound(Normalise(v, c).value, bound, num).Success?
    ensures Eq2p(solve, v, c, bound, num, fuel).Success? ==>
      var p := Normalise(v, c).value; var b0 := StartBound(p, bound, num).value;
      var play := Rounds(solve, p, num); var e := Eq2p(solve, v, c, bound, num, fuel).value;
      && Doublings(play, b0, fuel) <= fuel
      && e.b == Doubled(b0, Doublings(play, b0, fuel))
      && SettlesAt(play, e.b)
      && e == Reconcile(play(e.b).value, e.b, num)
      && (forall j :: 0 <= j < Doublings(play, b0, fuel) ==> Unsettled(play, Doubled(b0, j)))
  {
    if Eq2p(solve, v, c, bound, num, fuel).Success? {
      var p := Normalise(v, c).value;
      var b0 := StartBound(p, bound, num).value;
      var play := Rounds(solve, p, num);
      SearchBoundIsDoubled(play, b0, fuel);
    }
  }

  /** Players with the same value and cost get the same distribution, so both
      reconciled pdfs and cdfs agree. */
  lemma SymmetricPlayersAgree(solve: VolterraSolver, p: Players, b: real, num: nat)
    requires WellShaped(solve)
    requires p.v1 == p.v2 && p.c1 == p.c2
    ensures PlayRound(solve, p, b, num).Success? ==>
      var e := Reconcile(PlayRound(solve, p, b, num).value, b, num);
      e.pdf.first == e.pdf.second && e.cdf.first == e.cdf.second
  {
  }
}

=== FILE: outcomes.dfy ===
/** Failure-compatible result types and the error conditions the solver can raise. */
module Outcomes {

  /** A value, or the reason none could be produced. Usable with `:-`. */
  datatype Result<+T, +E> = Success(value: T) | Failure(error: E) {

    predicate IsFailure() {
      Failure?
    }

    function PropagateFailure<U>(): Result<U, E>
      requires Failure?
    {
      Failure(error)
    }

    function Extract(): T
      requires Success?
    {
      value
    }
  }

  /** An optional argument (Python's `None` default). */
  datatype Option<+T> = None | Some(value: T)

  /** Why an entry point gives no result: the exceptions the code raises, plus
      `ZeroPrize`, where numpy would carry on with `inf` or `nan`, and
      `NoConvergence`, the model's own limit on the number of doublings. */
  datatype Error =
    | ZeroGridSize         // `b / num` or `1 / num` with `num == 0` (ZeroDivisionError)
    | ZeroPrize            // closed-form cdf divided by a constant prize of zero (not an exception in numpy)
    | NoPointAtOrBelowOne  // `argmax` of the empty masked grid (ValueError)
    | ValueArity           // value argument of length other than 1 or 2 (ValueError)
    | CostArity            // cost argument rejected by the explicit raise (ValueError)
    | CostUnpack           // one-element unpacking of a cost tuple of another length (ValueError)
    | ValueHasNoLength     // `len` of a scalar or callable value argument (TypeError)
    | ZeroGuessDenominator // bound guess divided by `c(1/num) * num == 0` (ZeroDivisionError)
    | NoConvergence        // the doubling search used up its iteration budget (the code loops on)
}

=== FILE: scenario.dfy ===
/** A worked run of `eq2p` with its defaults (one unit prize and the linear cost
    for both players) on a grid of four points. */
module Scenario {
  import opened Outcomes
  import opened Series
  import opened Atomless
  import opened Arguments
  import opened Equilibrium

  /** Both players after normalising the default arguments `v = (1.0,)`, `c = (x -> x,)`. */
  const DefaultPlayers := Players(Const(1.0), LinearCost, Const(1.0), LinearCost)

  /** With a unit prize and the linear cost the atomless cdf is the grid itself. */
  lemma UnitPrizeCdfIsGrid(solve: VolterraSolver, b: real, num: nat)
    requires WellShaped(solve) && num > 0
    ensures var cand := AtomlessCdf(solve, Const(1.0), LinearCost, b, num).value;
      cand.cdf == cand.s == UniformGrid(b, num)
  {
  }

  lemma GridOfOne()
    ensures UniformGrid(1.0, 4) == [0.25, 0.5, 0.75, 1.0]
  {
    UniformGridAt(1.0, 4, 0);
    UniformGridAt(1.0, 4, 1);
    UniformGridAt(1.0, 4, 2);
    UniformGridAt(1.0, 4, 3);
  }

  lemma GridOfTwo()
    ensures UniformGrid(2.0, 4) == [0.5, 1.0, 1.5, 2.0]
  {
    UniformGridAt(2.0, 4, 0);
    UniformGridAt(2.0, 4, 1);
    UniformGridAt(2.0, 4, 2);
    UniformGridAt(2.0, 4, 3);
  }

  lemma CountOnGridOfOne()
    ensures CountAtMostOne([0.25, 0.5, 0.75, 1.0]) == 4
  {
    assert [0.25][..0] == [];
    assert [0.25, 0.5][..1] == [0.25];
    assert [0.25, 0.5, 0.75][..2] == [0.25, 0.5];
    assert [0.25, 0.5, 0.75, 1.0][..3] == [0.25, 0.5, 0.75];
  }

  lemma CountOnGridOfTwo()
    ensures CountAtMostOne([0.5, 1.0, 1.5, 2.0]) == 2
  {
    assert [0.5][..0] == [];
    assert [0.5, 1.0][..1] == [0.5];
    assert [0.5, 1.0, 1.5][..2] == [0.5, 1.0];
    assert [0.5, 1.0, 1.5, 2.0][..3] == [0.5, 1.0, 1.5];
  }

  /** At the default bound `1` neither player's cdf passes one, so the search doubles. */
  lemma FirstRoundUnsettled(solve: VolterraSolver)
    requires WellShaped(solve)
    ensures Unsettled(Rounds(solve, DefaultPlayers, 4), 1.0)
  {
    GtildeStages(solve, Const(1.0), LinearCost, 1.0, 4);
    UnitPrizeCdfIsGrid(solve, 1.0, 4);
    GridOfOne();
    CountOnGridOfOne();
  }

  /** At bound `2` the cdf passes one after the second grid point. */
  lemma SecondRoundSettles(solve: VolterraSolver)
    requires WellShaped(solve)
    ensures var d := Gtilde(solve, Const(1.0), LinearCost, 2.0, 4);
      && d.Success? && d.value.success && d.value.sbari == 1
      && d.value.s == d.value.cdf == [0.5, 1.0, 1.5, 2.0]
      && d.value.pdf[0] == 2.0 && d.value.pdf[1] == 2.0
  {
    GtildeStages(solve, Const(1.0), LinearCost, 2.0, 4);
    UnitPrizeCdfIsGrid(solve, 2.0, 4);
    ConstantPrizeClosedForm(solve, 1.0, LinearCost, 2.0, 4);
    GridOfTwo();
    CountOnGridOfTwo();
  }

  /** The search from the default bound stops after one doubling. */
  lemma DefaultSearch(solve: VolterraSolver)
    requires WellShaped(solve)
    ensures Gtilde(solve, Const(1.0), LinearCost, 2.0, 4).Success?
    ensures var d := Gtilde(solve, Const(1.0), LinearCost, 2.0, 4).value;
      Search(Rounds(solve, DefaultPlayers, 4), 1.0, 1) == Success(Found(Round(d, d), 2.0))
  {
    var play := Rounds(solve, DefaultPlayers, 4);
    FirstRoundUnsettled(solve);
    SecondRoundSettles(solve);
    assert Doubled(1.0, 1) == 2.0;
    SearchStopsAtFirstSettled(play, 1.0, 1, 1);
  }

  /** Cutting the settled round at index 1 leaves the cdf `[0.5, 1]` unshifted. */
  lemma DefaultReconcile(d: Distribution)
    requires Shaped(d, 4) && d.sbari == 1
    requires d.s == d.cdf == [0.5, 1.0, 1.5, 2.0]
    requires d.pdf[0] == 2.0 && d.pdf[1] == 2.0
    ensures Reconcile(Round(d, d), 2.0, 4) ==
      Equilibrium([0.5, 1.0], Pair([2.0, 2.0], [2.0, 2.0]), Pair([0.5, 1.0], [0.5, 1.0]), 1, 1.0, 2.0)
  {
    var e := Reconcile(Round(d, d), 2.0, 4);
    assert e.s == [0.5, 1.0];
    assert e.pdf.first == [2.0, 2.0];
    assert e.cdf.first == [0.5, 1.0];
  }

  /** `eq2p()` on four grid points: the bound doubles once to `2`, both players keep
      the first two grid points, the cdf `[0.5, 1]` needs no atom, and the reported
      density is `4` times the cdf's steps. */
  lemma DefaultRun(solve: VolterraSolver)
    requires WellShaped(solve)
    ensures Eq2p(solve, Tuple([Const(1.0)]), Tuple([LinearCost]), None, 4, 1) ==
      Success(Equilibrium([0.5, 1.0], Pair([2.0, 2.0], [2.0, 2.0]), Pair([0.5, 1.0], [0.5, 1.0]), 1, 1.0, 2.0))
  {
    assert Normalise(Tuple([Const(1.0)]), Tuple([LinearCost])) == Success(DefaultPlayers);
    LinearCostGuessIsPrize(Const(1.0), 4);
    assert StartBound(DefaultPlayers, None, 4) == Success(1.0);
    DefaultSearch(solve);
    SecondRoundSettles(solve);
    DefaultReconcile(Gtilde(solve, Const(1.0), LinearCost, 2.0, 4).value);
  }
}

=== FILE: series.dfy ===
/** Exact-real versions of the array primitives the solver uses: running sums,
    first differences, scaling, the shift that pins a cdf's last entry to one,
    boolean-mask selection and `argmax`. */
module Series {

  ghost predicate NonDecreasing(xs: seq<real>) {
    forall i, j :: 0 <= i <= j < |xs| ==> xs[i] <= xs[j]
  }

  ghost predicate StrictlyIncreasing(xs: seq<real>) {
    forall i, j :: 0 <= i < j < |xs| ==> xs[i] < xs[j]
  }

  ghost predicate NonIncreasing(xs: seq<real>) {
    forall i, j :: 0 <= i <= j < |xs| ==> xs[i] >= xs[j]
  }

  /** Sum of all entries, accumulated from the front (the reference for `CumSum`). */
  function Sum(xs: seq<real>): real
  {
    if |xs| == 0 then 0.0 else Sum(xs[..|xs| - 1]) + xs[|xs| - 1]
  }

  /** `numpy.cumsum`: the running sums, from the front. */
  function CumSum(xs: seq<real>): (r: seq<real>)
    ensures |r| == |xs|
  {
    if |xs| == 0 then [] else CumSum(xs[..|xs| - 1]) + [Sum(xs)]
  }

  /** Entry `i` of the running sums is the sum of the first `i + 1` entries. */
  lemma {:induction false} CumSumIsPrefixSum(xs: seq<real>, i: nat)
    requires i < |xs|
    ensures CumSum(xs)[i] == Sum(xs[..i + 1])
    decreases |xs|
  {
    var n := |xs| - 1;
    var front := xs[..n];
    if i == n {
      assert xs[..i + 1] == xs;
    } else {
      CumSumIsPrefixSum(front, i);
      assert front[..i + 1] == xs[..i + 1];
    }
  }

  /** `numpy.insert(numpy.diff(g), 0, g[0])`: the first entry, then successive differences. */
  function FirstDiff(g: seq<real>): (d: seq<real>)
    requires |g| > 0
    ensures |d| == |g|
  {
    seq(|g|, i requires 0 <= i < |g| => if i == 0 then g[0] else g[i] - g[i - 1])
  }

  /** Element-wise product with a scalar (`xs * k` on an array). */
  function Scale(xs: seq<real>, k: real): (r: seq<real>)
    ensures |r| == |xs|
    ensures forall i :: 0 <= i < |xs| ==> r[i] == k * xs[i]
  {
    seq(|xs|, i requires 0 <= i < |xs| => k * xs[i])
  }

  /** A prefix of a scaled sequence is the scaled prefix. */
  lemma ScalePrefix(xs: seq<real>, k: real, n: nat)
    requires n <= |xs|
    ensures Scale(xs, k)[..n] == Scale(xs[..n], k)
  {
    var l, r := Scale(xs, k)[..n], Scale(xs[..n], k);
    assert |l| == |r|;
    forall i | 0 <= i < n
      ensures l[i] == r[i]
    {
    }
  }

  /** Scaling every entry scales the sum. */
  lemma {:induction false} SumScale(xs: seq<real>, k: real)
    ensures Sum(Scale(xs, k)) == k * Sum(xs)
  {
    if |xs| > 0 {
      var n := |xs| - 1;
      ScalePrefix(xs, k, n);
      SumScale(xs[..n], k);
    }
  }

  /** The running sums of a scaled sequence are the scaled running sums. */
  lemma {:induction false} CumSumScale(xs: seq<real>, k: real)
    ensures CumSum(Scale(xs, k)) == Scale(CumSum(xs), k)
  {
    var ys := Scale(xs, k);
    var l, r := CumSum(ys), Scale(CumSum(xs), k);
    assert |l| == |r|;
    forall i | 0 <= i < |xs|
      ensures l[i] == r[i]
    {
      CumSumIsPrefixSum(ys, i);
      CumSumIsPrefixSum(xs, i);
      ScalePrefix(xs, k, i + 1);
      SumScale(xs[..i + 1], k);
    }
  }

  /** `g - g[-1] + 1`: the same sequence moved by one constant so that it ends at exactly one. */
  function ShiftToOne(g: seq<real>): (r: seq<real>)
    requires |g| > 0
    ensures |r| == |g|
    ensures r[|g| - 1] == 1.0
    ensures forall i :: 0 < i < |g| ==> r[i] - r[i - 1] == g[i] - g[i - 1]
    ensures forall i :: 0 <= i < |g| ==> r[i] - g[i] == 1.0 - g[|g| - 1]
  {
    seq(|g|, i requires 0 <= i < |g| => g[i] - g[|g| - 1] + 1.0)
  }

  /** Number of entries that are at most one. */
  function CountAtMostOne(cdf: seq<real>): (n: nat)
    ensures n <= |cdf|
  {
    if |cdf| == 0 then 0
    else CountAtMostOne(cdf[..|cdf| - 1]) + (if cdf[|cdf| - 1] <= 1.0 then 1 else 0)
  }

  /** Boolean-mask indexing `s[cdf <= 1]`: the entries of `s` whose `cdf` entry is at most one, in order. */
  function SelectAtMostOne(s: seq<real>, cdf: seq<real>): (kept: seq<real>)
    requires |s| == |cdf|
    ensures |kept| == CountAtMostOne(cdf)
  {
    if |s| == 0 then []
    else
      var n := |s| - 1;
      var front := SelectAtMostOne(s[..n], cdf[..n]);
      if cdf[n] <= 1.0 then front + [s[n]] else front
  }

  /** Every selected entry comes from `s`. */
  lemma {:induction false} SelectedComeFromGrid(s: seq<real>, cdf: seq<real>)
    requires |s| == |cdf|
    ensures forall x :: x in SelectAtMostOne(s, cdf) ==> x in s
  {
    if |s| > 0 {
      var n := |s| - 1;
      SelectedComeFromGrid(s[..n], cdf[..n]);
      assert forall x :: x in s[..n] ==> x in s;
    }
  }

  /** The mask keeps exactly the entries `s[i]` whose `cdf[i]` is at most one. */
  lemma {:induction false} SelectAtMostOneIsMask(s: seq<real>, cdf: seq<real>)
    requires |s| == |cdf|
    ensures forall x :: x in SelectAtMostOne(s, cdf) <==> exists i :: 0 <= i < |s| && s[i] == x && cdf[i] <= 1.0
  {
    if |s| > 0 {
      var n := |s| - 1;
      var front := SelectAtMostOne(s[..n], cdf[..n]);
      SelectAtMostOneIsMask(s[..n], cdf[..n]);
      forall x | x in SelectAtMostOne(s, cdf)
        ensures exists i :: 0 <= i < |s| && s[i] == x && cdf[i] <= 1.0
      {
        if x in front {
          var i :| 0 <= i < n && s[..n][i] == x && cdf[..n][i] <= 1.0;
          assert s[i] == x && cdf[i] <= 1.0;
        } else {
          assert s[n] == x && cdf[n] <= 1.0;
        }
      }
      forall x | exists i :: 0 <= i < |s| && s[i] == x && cdf[i] <= 1.0
        ensures x in SelectAtMostOne(s, cdf)
      {
        var i :| 0 <= i < |s| && s[i] == x && cdf[i] <= 1.0;
        if i < n {
          assert s[..n][i] == x && cdf[..n][i] <= 1.0;
          assert x in front;
        }
      }
    }
  }

  /** Selecting from a non-increasing grid keeps it non-increasing. */
  lemma {:induction false} SelectKeepsNonIncreasing(s: seq<real>, cdf: seq<real>)
    requires |s| == |cdf|
    requires NonIncreasing(s)
    ensures NonIncreasing(SelectAtMostOne(s, cdf))
  {
    if |s| > 0 {
      var n := |s| - 1;
      var front := SelectAtMostOne(s[..n], cdf[..n]);
      SelectKeepsNonIncreasing(s[..n], cdf[..n]);
      SelectedComeFromGrid(s[..n], cdf[..n]);
      forall i | 0 <= i < |front|
        ensures front[i] >= s[n]
      {
        assert front[i] in front;
        assert front[i] in s[..n];
      }
    }
  }

  /** Selecting from a strictly increasing grid keeps it strictly increasing. */
  lemma {:induction false} SelectKeepsIncreasing(s: seq<real>, cdf: seq<real>)
    requires |s| == |cdf|
    requires StrictlyIncreasing(s)
    ensures StrictlyIncreasing(SelectAtMostOne(s, cdf))
  {
    if |s| > 0 {
      var n := |s| - 1;
      var front := SelectAtMostOne(s[..n], cdf[..n]);
      SelectKeepsIncreasing(s[..n], cdf[..n]);
      SelectedComeFromGrid(s[..n], cdf[..n]);
      forall i | 0 <= i < |front|
        ensures front[i] < s[n]
      {
        assert front[i] in front;
        assert front[i] in s[..n];
      }
    }
  }

  /** `numpy.argmax`: the index of the first occurrence of the largest entry. */
  function ArgMax(xs: seq<real>): (k: nat)
    requires |xs| > 0
    ensures k < |xs|
  {
    ArgMaxFrom(xs, 1, 0)
  }

  /** The scan behind `ArgMax`: `best` is the index of the first largest entry among the first `i`. */
  function ArgMaxFrom(xs: seq<real>, i: nat, best: nat): (k: nat)
    requires best < i <= |xs|
    ensures best <= k < |xs|
    decreases |xs| - i
  {
    if i == |xs| then best
    else if xs[best] < xs[i] then ArgMaxFrom(xs, i + 1, i)
    else ArgMaxFrom(xs, i + 1, best)
  }

  /** `ArgMax` picks a largest entry, and no earlier entry is as large. */
  lemma ArgMaxIsFirstMax(xs: seq<real>)
    requires |xs| > 0
    ensures forall j :: 0 <= j < |xs| ==> xs[j] <= xs[ArgMax(xs)]
    ensures forall j :: 0 <= j < ArgMax(xs) ==> xs[j] < xs[ArgMax(xs)]
  {
    ArgMaxFromIsFirstMax(xs, 1, 0);
  }

  lemma {:induction false} ArgMaxFromIsFirstMax(xs: seq<real>, i: nat, best: nat)
    requires best < i <= |xs|
    requires forall j :: 0 <= j < i ==> xs[j] <= xs[best]
    requires forall j :: 0 <= j < best ==> xs[j] < xs[best]
    ensures forall j :: 0 <= j < |xs| ==> xs[j] <= xs[ArgMaxFrom(xs, i, best)]
    ensures forall j :: 0 <= j < ArgMaxFrom(xs, i, best) ==> xs[j] < xs[ArgMaxFrom(xs, i, best)]
    decreases |xs| - i
  {
    if i < |xs| {
      if xs[best] < xs[i] {
        ArgMaxFromIsFirstMax(xs, i + 1, i);
      } else {
        ArgMaxFromIsFirstMax(xs, i + 1, best);
      }
    }
  }

  /** On a strictly increasing sequence `argmax` picks the last index. */
  lemma ArgMaxOfIncreasing(xs: seq<real>)
    requires |xs| > 0
    requires StrictlyIncreasing(xs)
    ensures ArgMax(xs) == |xs| - 1
  {
    ArgMaxIsFirstMax(xs);
    assert xs[|xs| - 1] <= xs[ArgMax(xs)];
  }

  /** On a non-increasing sequence `argmax` is the first index: no later entry is strictly larger. */
  lemma ArgMaxOfNonIncreasing(xs: seq<real>)
    requires |xs| > 0
    requires NonIncreasing(xs)
    ensures ArgMax(xs) == 0
  {
    ArgMaxIsFirstMax(xs);
    assert xs[ArgMax(xs)] <= xs[0];
  }

  /** The running sum of the first differences gives back the sequence (`cumsum` undoes `diff`). */
  lemma {:induction false} CumSumOfFirstDiff(g: seq<real>)
    requires |g| > 0
    ensures CumSum(FirstDiff(g)) == g
  {
    var d := FirstDiff(g);
    forall i | 0 <= i < |g|
      ensures CumSum(d)[i] == g[i]
    {
      CumSumIsPrefixSum(d, i);
      SumOfDiffPrefix(g, i);
    }
  }

  lemma {:induction false} SumOfDiffPrefix(g: seq<real>, i: nat)
    requires i < |g|
    ensures Sum(FirstDiff(g)[..i + 1]) == g[i]
  {
    var d := FirstDiff(g);
    if i == 0 {
      assert d[..1][..0] == [];
    } else {
      SumOfDiffPrefix(g, i - 1);
      assert d[..i + 1][..i] == d[..i];
    }
  }

  /** The running sum starts at the first entry and then adds one entry per step. */
  lemma CumSumSteps(xs: seq<real>, i: nat)
    requires i < |xs|
    ensures i == 0 ==> CumSum(xs)[0] == xs[0]
    ensures i > 0 ==> CumSum(xs)[i] == CumSum(xs)[i - 1] + xs[i]
  {
    var r := CumSum(xs);
    CumSumIsPrefixSum(xs, i);
    if i == 0 {
      assert xs[..1][..0] == [];
    } else {
      CumSumIsPrefixSum(xs, i - 1);
      var p := xs[..i + 1];
      assert p[..i] == xs[..i];
      assert Sum(p) == Sum(p[..i]) + p[i];
    }
  }

  /** The first differences of a running sum give back the summands (`diff` undoes `cumsum`). */
  lemma {:induction false} FirstDiffOfCumSum(xs: seq<real>)
    requires |xs| > 0
    ensures FirstDiff(CumSum(xs)) == xs
  {
    var r := CumSum(xs);
    forall i | 0 <= i < |xs|
      ensures FirstDiff(r)[i] == xs[i]
    {
      CumSumSteps(xs, i);
    }
  }

  /** `ShiftToOne` is the only sequence with the same successive differences that ends at one. */
  lemma {:induction false} ShiftToOneIsUnique(g: seq<real>, h: seq<real>)
    requires |g| > 0 && |h| == |g|
    requires h[|h| - 1] == 1.0
    requires forall i :: 0 < i < |g| ==> h[i] - h[i - 1] == g[i] - g[i - 1]
    ensures h == ShiftToOne(g)
  {
    var r := ShiftToOne(g);
    var i := |g| - 1;
    while i > 0
      invariant 0 <= i < |g|
      invariant forall j :: i <= j < |g| ==> h[j] == r[j]
    {
      assert h[i] - h[i - 1] == r[i] - r[i - 1];
      i := i - 1;
    }
  }

  /** For a non-decreasing cdf the entries at most one form a prefix, of length `CountAtMostOne`. */
  lemma {:induction false} CountSplitsNonDecreasing(cdf: seq<real>)
    requires NonDecreasing(cdf)
    ensures forall i :: 0 <= i < CountAtMostOne(cdf) ==> cdf[i] <= 1.0
    ensures forall i :: CountAtMostOne(cdf) <= i < |cdf| ==> cdf[i] > 1.0
  {
    if |cdf| > 0 {
      var n := |cdf| - 1;
      var front := cdf[..n];
      CountSplitsNonDecreasing(front);
      if cdf[n] <= 1.0 {
        forall i | 0 <= i < n
          ensures front[i] <= 1.0
        {
          assert cdf[i] <= cdf[n];
        }
      }
    }
  }

  /** For a non-decreasing cdf every index below `CountAtMostOne` has its entry at most one. */
  lemma BelowCountAtMostOne(cdf: seq<real>, j: nat)
    requires NonDecreasing(cdf) && j < CountAtMostOne(cdf)
    ensures cdf[j] <= 1.0
  {
    CountSplitsNonDecreasing(cdf);
  }

  /** A non-monotone cdf where the entry at index `CountAtMostOne - 1` exceeds one. */
  lemma CountIndexMissesUnsortedCdf()
    ensures var cdf := [0.5, 1.5, 0.5]; CountAtMostOne(cdf) == 2 && cdf[CountAtMostOne(cdf) - 1] > 1.0
  {
    var cdf := [0.5, 1.5, 0.5];
    assert cdf[..2] == [0.5, 1.5];
    assert cdf[..2][..1] == [0.5];
    assert cdf[..2][..1][..0] == [];
  }

  /** A sequence whose every step goes up or stays is non-decreasing. */
  lemma {:induction false} StepsGiveNonDecreasing(xs: seq<real>)
    requires forall i :: 0 < i < |xs| ==> xs[i - 1] <= xs[i]
    ensures NonDecreasing(xs)
  {
    forall i, j | 0 <= i <= j < |xs|
      ensures xs[i] <= xs[j]
    {
      var k := i;
      while k < j
        invariant i <= k <= j
        invariant xs[i] <= xs[k]
      {
        k := k + 1;
      }
    }
  }
}
